=== FILE: README.md ===
# blobwar move search, modelled in Dafny

This project models the move-search engine of the blobwar player: the
Min-Max and Alpha-Beta tree evaluators and the `compute_next_move` entry
points of the `MinMax` and `AlphaBeta` strategies. The model proves how
each variant relates to a reference minimax value and to the other
variants.

The game state is abstracted as a finite tree (`GameTree.Tree`). Each
node records `current_player` (`player`) and `value()` (`value`). Each
node also lists its legal movements in enumeration order, each paired with
the position `play` produces. A node's value lies in -127..127, so
negating it cannot overflow `i8`. Scores are `i8` values (`GameTree.I8`).
Depths are natural numbers.

Modules:

- `GameTree` holds the tree, the `(Option<Movement>, i8)` result
  (`Outcome`), and the shared base case.
- `Choice` models how one child is selected from a sequence of child
  scores. Each combiner is described by its tie rule:
  - `Iterator::max_by_key` keeps the last maximum.
  - `Iterator::min_by_key` keeps the first minimum.
  - rayon's `max_by_key` and `min_by_key` follow the same two rules.
  - The `reduce_with` closures of `alpha_beta_par` keep the last maximum
    and the last minimum.

  `Fold` is the sequential left fold. `Reduce` is the parallel
  divide-and-conquer reduction.
- `MinMaxEngine` (`src/strategy/minmax.rs`) has three parts:
  - `MinMaxValue`, the reference value: the leaf score, or the max/min of
    the children's values;
  - `minmax_iter`, `minmax_fonc` and `minmax_par`;
  - `MinMax::compute_next_move`.
- `AlphaBetaEngine` (`src/strategy/alphabeta.rs`) models
  `alpha_beta_par`, `alpha_beta` and `alpha_beta_fonc`. `AlphaBetaRun` is
  `alpha_beta` with a call counter. This module also models
  `AlphaBeta::compute_next_move`.
- `AlphaBetaWindow` proves the window property of Knuth and Moore ("An
  Analysis of Alpha-Beta Pruning", 1975) for the sequential `alpha_beta`.
  It also proves which child each of its loops keeps.
- `Scenarios` gives concrete positions where the variants differ in
  observable ways.

## Behaviour as written

The model follows the code. In five places the code departs from the
textbook algorithms or from what its own names suggest:

- **Leaf sign.** Textbook minimax scores a leaf positively for the
  maximizing player. This code negates it: a leaf scores `-value()` when
  its player equals the maximizing player, and `value()` otherwise
  (`src/strategy/minmax.rs:46-49`). The model uses the code's sign; see
  `Scenarios.TerminalSeven`.
- **Ties in the parallel engines.** rayon's reductions combine partial
  results in enumeration order, and every combiner here is associative.
  So the parallel engines are deterministic:
  - `minmax_par` returns exactly what `minmax_fonc` returns, movement
    included.
  - `alpha_beta_par` breaks ties at minimizing nodes toward the LAST
    minimum, while `minmax_par` takes the FIRST.
- **Sequential `alpha_beta` keeps the first best child.** Its comparisons
  against the running bound are strict, so a later child with an equal
  score never replaces the kept one. `minmax_fonc` instead keeps the last
  maximum. At a minimizing node where every child scores `i8::MAX`,
  `alpha_beta` returns no movement even with the full window.
- **Level 1 returns nothing.** `compute_next_move` searches `level - 1`
  plies. So `MinMax(1)` and `AlphaBeta(1)` return `None` even when legal
  movements exist. The model requires `level >= 1`, because level 0 makes
  the subtraction underflow.
- **Reversed window is harmless.** `AlphaBeta::compute_next_move` passes
  the reversed window `(i8::MAX, i8::MIN)`. This changes nothing, because
  `alpha_beta_par` never uses its bounds to skip a child. Its choice is
  the same as `MinMax`'s at the same level. If the sequential
  `alpha_beta` were given that window, it would examine only the first
  movement.

## Model

| member | source | states |
|---|---|---|
| `MinMaxEngine.MinMaxValue` | src/strategy/minmax.rs:44-77 | the minimax value of any position at any depth lies in -127..127, so `i8::MIN` can never be a real score; `i8::MAX` can (see `Scenarios.SaturatedMinHasNoMove`) |
| `MinMaxEngine.MinMaxNodes` | src/strategy/minmax.rs:52-75 | the number of calls `minmax_fonc` makes: one per node of the tree cut at the search depth: at least 1, and more than the number of movements wherever the search recurses |
| `MinMaxEngine.MinMaxIter` | src/strategy/minmax.rs:12-17 | at every depth, `minmax_iter` returns what a depth-0 search returns: no movement and the leaf score |
| `MinMaxEngine.MinMaxIterSkipsSearch` | src/strategy/minmax.rs:12-41 | where a search should recurse, `minmax_iter` returns no movement and so disagrees with `minmax_fonc`; its loop is never reached |
| `MinMaxEngine.MinMaxFonc` | src/strategy/minmax.rs:44-77 | `minmax_fonc` returns a movement exactly when the depth is positive and a movement exists (the `unwrap` cannot fail); its score is the minimax value |
| `MinMaxEngine.MinMaxFoncChoice` | src/strategy/minmax.rs:52-76 | away from the leaves, `minmax_fonc` returns the movement of the last child of largest value at the maximizing player's nodes, and of the first child of smallest value elsewhere |
| `MinMaxEngine.MinMaxPar` | src/strategy/minmax.rs:80-113 | `minmax_par` returns a movement exactly when one is searched; its score is the minimax value |
| `MinMaxEngine.MinMaxParIsFonc` | src/strategy/minmax.rs:88-112 | `minmax_par` returns exactly what `minmax_fonc` returns, movement and score |
| `MinMaxEngine.MinMaxNextMove` | src/strategy/minmax.rs:116-118 | `MinMax(level)` (level >= 1) returns no movement exactly when level is 1 or no movement exists; otherwise it returns the last child of largest value at depth level-1 |
| `Choice.Pick` | src/strategy/alphabeta.rs:42-66 | the binary combiner keeps the candidate of larger score under `LastMax` and of smaller score otherwise; on a tie it keeps the later candidate, except under `FirstMin` (std and rayon `min_by_key`), which keeps the earlier; the strict `value1 > value2` and `value1 < value2` closures are `LastMax` and `LastMin` |
| `Choice.Fold` | src/strategy/minmax.rs:61 | the sequential fold designates the last maximum under `LastMax` and the first minimum under `FirstMin` |
| `Choice.Reduce` | src/strategy/alphabeta.rs:42-48 | the order-preserving parallel reduction designates the index its combiner's tie rule describes |
| `Choice.ReduceSplitAnywhere` | src/strategy/alphabeta.rs:60-66 | splitting the work at any point and combining the two halves' winners gives the reduction's own result |
| `Choice.ReduceIsFold` | src/strategy/minmax.rs:98 | the parallel reduction and the sequential fold choose the same index |
| `AlphaBetaEngine.AlphaBetaPar` | src/strategy/alphabeta.rs:15-69 | `alpha_beta_par` returns a movement exactly when one is searched; its score is the minimax value, whatever bounds it receives |
| `AlphaBetaEngine.MaxWorker` | src/strategy/alphabeta.rs:33-41 | the `map_init` worker at a maximizing node yields the children's minimax values in order, whatever its local `alpha` |
| `AlphaBetaEngine.MinWorker` | src/strategy/alphabeta.rs:51-59 | the `map_init` worker at a minimizing node yields the children's minimax values in order, whatever its local `beta` |
| `AlphaBetaEngine.AlphaBetaParChoice` | src/strategy/alphabeta.rs:42-66 | away from the leaves, `alpha_beta_par` returns the last child of largest value at maximizing nodes and the last child of smallest value at minimizing nodes |
| `AlphaBetaEngine.AlphaBetaParIgnoresBounds` | src/strategy/alphabeta.rs:35-54 | any two windows give `alpha_beta_par` the same movement and score |
| `AlphaBetaEngine.AlphaBetaParVsMinMaxPar` | src/strategy/alphabeta.rs:15-69 | `alpha_beta_par` and `minmax_par` have equal scores everywhere and equal results at maximizing nodes; where they differ, two children share the node's value |
| `AlphaBetaEngine.AlphaBetaRun` | src/strategy/alphabeta.rs:71-123 | `alpha_beta` makes at most as many calls as `minmax_fonc` at the same depth; a maximizing node returns `(None, i8::MIN)` or the pair of some child's movement and that child's own score, searched with a running `alpha` at least the entry `alpha` and exceeding it; dually a minimizing node returns `(None, i8::MAX)` or a child's movement with its own score, below the running `beta` it was searched with (`best_child` and `best_value` are set together) |
| `AlphaBetaEngine.MaxLoop` | src/strategy/alphabeta.rs:89-104 | the maximizing loop either keeps its initial best pair or returns a later child's movement together with that child's own score, searched with a running `alpha` (at least the loop's) that the score exceeds; it makes no more calls than the children below it hold |
| `AlphaBetaEngine.MinLoop` | src/strategy/alphabeta.rs:106-121 | the minimizing loop either keeps its initial best pair or returns a later child's movement together with that child's own score, searched with a running `beta` (at most the loop's) that the score is below, within the same call bound |
| `AlphaBetaEngine.AlphaBeta` | src/strategy/alphabeta.rs:88-121 | away from the leaves, `alpha_beta` returns no movement exactly when it returns the sentinel (`i8::MIN` when maximizing, `i8::MAX` when minimizing); a movement comes with a score beyond the initial bound |
| `AlphaBetaEngine.AlphaBetaFonc` | src/strategy/alphabeta.rs:125-161 | `alpha_beta_fonc` returns exactly what `minmax_fonc` returns; the `unwrap_or` defaults are never used |
| `AlphaBetaEngine.AlphaBetaFoncIgnoresBounds` | src/strategy/alphabeta.rs:146-155 | any two windows give `alpha_beta_fonc` the same result |
| `AlphaBetaEngine.AlphaBetaNextMove` | src/strategy/alphabeta.rs:165-167 | `AlphaBeta(level)` with its reversed window returns exactly the movement `MinMax(level)` returns |
| `AlphaBetaEngine.SharedBaseCase` | src/strategy/alphabeta.rs:22-28 | at depth 0 or without movements all six search functions return no movement and `-value` when the node's player is the maximizing player, `value` otherwise |
| `AlphaBetaWindow.Window` | src/strategy/alphabeta.rs:71-123 | for `alpha < beta`, a minimax value `V`, and `alpha_beta`'s score `r`: `V <= alpha` gives `r <= alpha`, `V >= beta` gives `r >= beta`, and otherwise `r == V` |
| `AlphaBetaWindow.MaxLoopWindow` | src/strategy/alphabeta.rs:92-102 | entered at any child with `alpha < beta`, the maximizing loop keeps the first child whose value reaches the remaining maximum (or `beta`), and its score obeys the window property |
| `AlphaBetaWindow.MinLoopWindow` | src/strategy/alphabeta.rs:109-119 | the minimizing loop keeps the first child whose value reaches down to the remaining minimum (or `alpha`), and its score obeys the window property |
| `AlphaBetaWindow.AlphaBetaMaxChoice` | src/strategy/alphabeta.rs:89-104 | at a maximizing node with `alpha < beta`: `(None, i8::MIN)` exactly when no child's value exceeds `alpha`; otherwise the first child whose value reaches min(V, beta) |
| `AlphaBetaWindow.AlphaBetaMinChoice` | src/strategy/alphabeta.rs:106-121 | at a minimizing node with `alpha < beta`: `(None, i8::MAX)` exactly when no child's value is below `beta`; otherwise the first child whose value reaches down to max(V, alpha) |
| `AlphaBetaWindow.FullWindowIsMinMax` | src/strategy/alphabeta.rs:71-123 | with the window `(i8::MIN, i8::MAX)`, `alpha_beta`'s score equals `minmax_fonc`'s |
| `AlphaBetaWindow.ClosedWindowFirstChildOnly` | src/strategy/alphabeta.rs:99-101 | entered with `alpha >= beta`, `alpha_beta` searches only the first movement and returns it or nothing; with two or more movements it makes strictly fewer calls than `minmax_fonc` |
| `Scenarios.TerminalSeven` | src/strategy/minmax.rs:45-51 | a terminal position of value 7 scores -7 for the maximizing player and 7 for the other, in every engine and at every depth |
| `Scenarios.SingleMovement` | src/strategy/minmax.rs:52-63 | with one movement and depth >= 1, `minmax_fonc`, `minmax_par`, `alpha_beta_fonc` and `alpha_beta_par` return that movement and the value of its position; the sequential `alpha_beta` need not (see `Scenarios.SaturatedMinHasNoMove`) |
| `Scenarios.ParallelTieAtMin` | src/strategy/alphabeta.rs:60-66 | on a tie at a minimizing node, `minmax_par` returns the first movement and `alpha_beta_par` the second, with the same score |
| `Scenarios.SequentialTieAtMax` | src/strategy/alphabeta.rs:94-98 | on a tie at a maximizing node, `minmax_fonc` returns the second movement and `alpha_beta` with the full window returns the first |
| `Scenarios.SaturatedMinHasNoMove` | src/strategy/alphabeta.rs:106-121 | at a minimizing node whose only child scores `i8::MAX`, `alpha_beta` with the full window returns `(None, i8::MAX)` while `minmax_fonc` returns the movement |
| `Scenarios.LevelOneReturnsNone` | src/strategy/minmax.rs:117 | `MinMax(1)` and `AlphaBeta(1)` never return a movement |

## Left out

- `min_max_anytime` and `alpha_beta_anytime` are not modelled. They
  connect to a shared-memory slot and publish one result per depth
  (`1..100`). An outside process ends them. Cross-process IPC and
  process lifetime are outside a pure model.
- rayon's threads are not modelled, only the results of its reductions:
  - `Reduce` splits at the midpoint. `ReduceSplitAnywhere` shows that
    any split point gives the same result.
  - Each `map_init` worker is modelled as one worker that visits all
    children. The bounds a worker passes down are provably irrelevant
    (`AlphaBetaParIgnoresBounds`), so how children are shared among
    workers cannot change the result.
- The board, the game rules and `value()` are not modelled. They are
  replaced by the abstract tree.
- `i8` overflow is not modelled. A node's value is restricted to
  -127..127, so `-value()` never overflows. `compute_next_move` requires
  `level >= 1` instead of modelling the `u8` underflow of `level - 1`.
  The search depth is a `nat`, not a `u8`.
- The `fmt::Display` impls and `src/main.rs` are not modelled. The
  `Display` impls only format text. `src/main.rs` only starts a match.
- `MinMaxEngine.MinMaxNodes` counts the calls `minmax_fonc` makes by
  definition: the size of the tree cut at the search depth. `minmax_fonc`
  itself does not carry a call counter.
- `AlphaBetaWindow.ClosedWindowFirstChildOnly` proves "strictly fewer
  calls than `minmax_fonc`" only for a window that is closed on entry.
  For a cut-off that happens later in the loop, the model proves only the
  bound "no more calls" (`AlphaBetaEngine.AlphaBetaRun`).

=== FILE: alphabeta.dfy ===
/** The Alpha-Beta engine (`src/strategy/alphabeta.rs`): the parallel,
    sequential and functional search functions and the `AlphaBeta`
    strategy's entry point, each related to the Min-Max engine.
 */
module AlphaBetaEngine {
  import opened GameTree
  import opened Choice
  import opened MinMaxEngine

  /** The combiner of `alpha_beta_par`'s `reduce_with`: on equal scores
      the later child wins, at maximizing and at minimizing nodes alike. */
  function ParRule<M>(t: Tree<M>, maximizing: bool): Rule
  {
    if maximizing == t.player then LastMax else LastMin
  }

  /** `alpha_beta_par`. Every child is searched (no child is ever skipped)
      and the `(child, score)` pairs are reduced with `ParRule`. The bound
      handed down is either the caller's or the worker's local one, and
      neither influences anything: the result is the minimax value. */
  function AlphaBetaPar<M>(t: Tree<M>, depth: nat, alpha: I8, beta: I8, maximizing: bool): (r: Outcome<M>)
    ensures r.best.Some? <==> !IsLeaf(t, depth)
    ensures r.score == MinMaxValue(t, depth, maximizing)
    decreases depth, 1
  {
    if IsLeaf(t, depth) then Base(t, maximizing)
    else if maximizing == t.player then
      var scores := MaxWorker(t, depth, beta, maximizing, 0, I8Min);
      var k := Reduce(LastMax, scores, 0, |scores|);
      ChosenIsValue(t, depth, maximizing, LastMax, k);
      Outcome(Some(t.children[k].mv), scores[k])
    else
      var scores := MinWorker(t, depth, alpha, maximizing, 0, I8Max);
      var k := Reduce(LastMin, scores, 0, |scores|);
      ChosenIsValue(t, depth, maximizing, LastMin, k);
      Outcome(Some(t.children[k].mv), scores[k])
  }

  /** The `map_init` worker at a maximizing node, run over children `i..`:
      each child is searched with the worker's `local_alpha` (starting at
      `i8::MIN`) and the caller's `beta`, and `local_alpha` is raised to any
      larger child score. The scores are the children's minimax values. */
  function MaxWorker<M>(t: Tree<M>, depth: nat, beta: I8, maximizing: bool, i: nat, localAlpha: I8): (s: seq<int>)
    requires depth > 0 && i <= |t.children|
    ensures s == ChildValues(t, depth, maximizing)[i..]
    decreases depth, 0, |t.children| - i
  {
    if i == |t.children| then []
    else
      var v := AlphaBetaPar(t.children[i].child, depth - 1, localAlpha, beta, maximizing).score;
      [v] + MaxWorker(t, depth, beta, maximizing, i + 1, if v > localAlpha then v else localAlpha)
  }

  /** The `map_init` worker at a minimizing node: the caller's `alpha` and
      the worker's `local_beta` (starting at `i8::MAX`, lowered to any
      smaller child score). */
  function MinWorker<M>(t: Tree<M>, depth: nat, alpha: I8, maximizing: bool, i: nat, localBeta: I8): (s: seq<int>)
    requires depth > 0 && i <= |t.children|
    ensures s == ChildValues(t, depth, maximizing)[i..]
    decreases depth, 0, |t.children| - i
  {
    if i == |t.children| then []
    else
      var v := AlphaBetaPar(t.children[i].child, depth - 1, alpha, localBeta, maximizing).score;
      [v] + MinWorker(t, depth, alpha, maximizing, i + 1, if v < localBeta then v else localBeta)
  }

  /** The result of a sequential search together with the number of calls
      of `alpha_beta` it made (the node itself and everything below it). */
  datatype Run<M> = Run(result: Outcome<M>, nodes: nat)

  /** `alpha_beta` with a call counter. It never makes more calls than
      `minmax_fonc` at the same depth. At a maximizing node it returns
      either `(None, i8::MIN)` or the pair of a child's movement and that
      child's own score, searched with a running `alpha` (at least the
      entry `alpha`) that the score exceeded; dually at a minimizing node. */
  function AlphaBetaRun<M>(t: Tree<M>, depth: nat, alpha: I8, beta: I8, maximizing: bool): (r: Run<M>)
    ensures 1 <= r.nodes <= MinMaxNodes(t, depth)
    ensures !IsLeaf(t, depth) && maximizing == t.player ==>
              || r.result == Outcome(None, I8Min)
              || (&& r.result.score > alpha
                  && exists j: nat, a: I8 :: && j < |t.children| && alpha <= a
                          && RaisedBy(t, depth, beta, maximizing, j, a, r.result))
    ensures !IsLeaf(t, depth) && maximizing != t.player ==>
              || r.result == Outcome(None, I8Max)
              || (&& r.result.score < beta
                  && exists j: nat, b: I8 :: && j < |t.children| && b <= beta
                          && LoweredBy(t, depth, alpha, maximizing, j, b, r.result))
    decreases depth, 1
  {
    if IsLeaf(t, depth) then Run(Base(t, maximizing), 1)
    else if maximizing == t.player then
      var loop := MaxLoop(t, depth, alpha, beta, maximizing, 0, None, I8Min);
      assert loop.result != Outcome(None, I8Min) ==>
               exists j: nat, a: I8 :: && j < |t.children| && alpha <= a
                                      && RaisedBy(t, depth, beta, maximizing, j, a, loop.result) by {
        if loop.result != Outcome(None, I8Min) {
          var j: nat, a: I8 :| && j < |t.children| && alpha <= a
                               && RaisedBy(t, depth, beta, maximizing, j, a, loop.result);
        }
      }
      Run(loop.result, 1 + loop.nodes)
    else
      var loop := MinLoop(t, depth, alpha, beta, maximizing, 0, None, I8Max);
      assert loop.result != Outcome(None, I8Max) ==>
               exists j: nat, b: I8 :: && j < |t.children| && b <= beta
                                      && LoweredBy(t, depth, alpha, maximizing, j, b, loop.result) by {
        if loop.result != Outcome(None, I8Max) {
          var j: nat, b: I8 :| && j < |t.children| && b <= beta
                               && LoweredBy(t, depth, alpha, maximizing, j, b, loop.result);
        }
      }
      Run(loop.result, 1 + loop.nodes)
  }

  /** `o` is child `j`'s movement together with that child's own score,
      searched with the running `alpha` `a`, and the score exceeds `a`. */
  ghost predicate RaisedBy<M>(t: Tree<M>, depth: nat, beta: I8, maximizing: bool, j: nat, a: I8, o: Outcome<M>)
    requires depth > 0
    decreases depth - 1, 2
  {
    && j < |t.children|
    && var c := AlphaBetaRun(t.children[j].child, depth - 1, a, beta, maximizing).result.score;
       o == Outcome(Some(t.children[j].mv), c) && c > a
  }

  /** `o` is child `j`'s movement together with that child's own score,
      searched with the running `beta` `b`, and the score is below `b`. */
  ghost predicate LoweredBy<M>(t: Tree<M>, depth: nat, alpha: I8, maximizing: bool, j: nat, b: I8, o: Outcome<M>)
    requires depth > 0
    decreases depth - 1, 2
  {
    && j < |t.children|
    && var c := AlphaBetaRun(t.children[j].child, depth - 1, alpha, b, maximizing).result.score;
       o == Outcome(Some(t.children[j].mv), c) && c < b
  }

  /** The `for child in movements` loop at a maximizing node, from child
      `i` on, with the running `alpha` and the best pair so far. A child
      becomes the best one only when its score is strictly above the
      running `alpha`, which it then replaces; the loop stops as soon as
      `alpha >= beta`. The loop returns either the best pair it started
      with or a later child's movement together with that child's own
      score, searched with a running `alpha` it exceeded. */
  function MaxLoop<M>(t: Tree<M>, depth: nat, alpha: I8, beta: I8, maximizing: bool,
                      i: nat, bestChild: Option<M>, bestValue: I8): (r: Run<M>)
    requires depth > 0 && i <= |t.children|
    ensures r.nodes <= SubtreeNodes(t, depth, i)
    ensures || r.result == Outcome(bestChild, bestValue)
            || (&& r.result.score > alpha
                && exists j: nat, a: I8 :: && i <= j < |t.children| && alpha <= a
                        && RaisedBy(t, depth, beta, maximizing, j, a, r.result))
    decreases depth, 0, |t.children| - i
  {
    if i == |t.children| then Run(Outcome(bestChild, bestValue), 0)
    else
      var child := AlphaBetaRun(t.children[i].child, depth - 1, alpha, beta, maximizing);
      var v := child.result.score;
      var alpha' := if v > alpha then v else alpha;
      var bestChild' := if v > alpha then Some(t.children[i].mv) else bestChild;
      var bestValue' := if v > alpha then v else bestValue;
      assert v > alpha ==>
               exists j: nat, a: I8 :: && i <= j < |t.children| && alpha <= a
                                      && RaisedBy(t, depth, beta, maximizing, j, a, Outcome(bestChild', bestValue')) by {
        if v > alpha {
          assert RaisedBy(t, depth, beta, maximizing, i, alpha, Outcome(bestChild', bestValue'));
        }
      }
      if alpha' >= beta then Run(Outcome(bestChild', bestValue'), child.nodes)
      else
        var rest := MaxLoop(t, depth, alpha', beta, maximizing, i + 1, bestChild', bestValue');
        assert rest.result != Outcome(bestChild', bestValue') ==>
                 exists j: nat, a: I8 :: && i <= j < |t.children| && alpha <= a
                                        && RaisedBy(t, depth, beta, maximizing, j, a, rest.result) by {
          if rest.result != Outcome(bestChild', bestValue') {
            var j: nat, a: I8 :| && i + 1 <= j < |t.children| && alpha' <= a
                                 && RaisedBy(t, depth, beta, maximizing, j, a, rest.result);
          }
        }
        Run(rest.result, child.nodes + rest.nodes)
  }

  /** The loop at a minimizing node: a child becomes the best one only
      when its score is strictly below the running `beta`, and a returned
      movement comes with that child's own score. */
  function MinLoop<M>(t: Tree<M>, depth: nat, alpha: I8, beta: I8, maximizing: bool,
                      i: nat, bestChild: Option<M>, bestValue: I8): (r: Run<M>)
    requires depth > 0 && i <= |t.children|
    ensures r.nodes <= SubtreeNodes(t, depth, i)
    ensures || r.result == Outcome(bestChild, bestValue)
            || (&& r.result.score < beta
                && exists j: nat, b: I8 :: && i <= j < |t.children| && b <= beta
                        && LoweredBy(t, depth, alpha, maximizing, j, b, r.result))
    decreases depth, 0, |t.children| - i
  {
    if i == |t.children| then Run(Outcome(bestChild, bestValue), 0)
    else
      var child := AlphaBetaRun(t.children[i].child, depth - 1, alpha, beta, maximizing);
      var v := child.result.score;
      var beta' := if v < beta then v else beta;
      var bestChild' := if v < beta then Some(t.children[i].mv) else bestChild;
      var bestValue' := if v < beta then v else bestValue;
      assert v < beta ==>
               exists j: nat, b: I8 :: && i <= j < |t.children| && b <= beta
                                      && LoweredBy(t, depth, alpha, maximizing, j, b, Outcome(bestChild', bestValue')) by {
        if v < beta {
          assert LoweredBy(t, depth, alpha, maximizing, i, beta, Outcome(bestChild', bestValue'));
        }
      }
      if alpha >= beta' then Run(Outcome(bestChild', bestValue'), child.nodes)
      else
        var rest := MinLoop(t, depth, alpha, beta', maximizing, i + 1, bestChild', bestValue');
        assert rest.result != Outcome(bestChild', bestValue') ==>
                 exists j: nat, b: I8 :: && i <= j < |t.children| && b <= beta
                                        && LoweredBy(t, depth, alpha, maximizing, j, b, rest.result) by {
          if rest.result != Outcome(bestChild', bestValue') {
            var j: nat, b: I8 :| && i + 1 <= j < |t.children| && b <= beta'
                                 && LoweredBy(t, depth, alpha, maximizing, j, b, rest.result);
          }
        }
        Run(rest.result, child.nodes + rest.nodes)
  }

  /** `alpha_beta`: the sequential search without its call counter. */
  function AlphaBeta<M>(t: Tree<M>, depth: nat, alpha: I8, beta: I8, maximizing: bool): (r: Outcome<M>)
    ensures !IsLeaf(t, depth) && maximizing == t.player ==>
              (r.best.None? <==> r == Outcome(None, I8Min)) && (r.best.Some? ==> r.score > alpha)
    ensures !IsLeaf(t, depth) && maximizing != t.player ==>
              (r.best.None? <==> r == Outcome(None, I8Max)) && (r.best.Some? ==> r.score < beta)
  {
    AlphaBetaRun(t, depth, alpha, beta, maximizing).result
  }

  /** `alpha_beta_fonc`: like `minmax_fonc`, with the bounds only passed
      along. The `unwrap_or` default is never used, because the base case
      has already caught positions without movements. */
  function AlphaBetaFonc<M>(t: Tree<M>, depth: nat, alpha: I8, beta: I8, maximizing: bool): (r: Outcome<M>)
    ensures r == MinMaxFonc(t, depth, maximizing)
    decreases depth, 1
  {
    if IsLeaf(t, depth) then Base(t, maximizing)
    else
      var scores := FoncBoundScores(t, depth, alpha, beta, maximizing);
      var k := Fold(StdRule(t, maximizing), scores, |scores|);
      ChosenIsValue(t, depth, maximizing, StdRule(t, maximizing), k);
      Outcome(Some(t.children[k].mv), scores[k])
  }

  /** The `(Some(child), score)` pairs `alpha_beta_fonc` maps to. */
  function FoncBoundScores<M>(t: Tree<M>, depth: nat, alpha: I8, beta: I8, maximizing: bool): (s: seq<int>)
    requires depth > 0
    ensures s == ChildValues(t, depth, maximizing)
    decreases depth, 0
  {
    seq(|t.children|, i requires 0 <= i < |t.children| =>
      AlphaBetaFonc(t.children[i].child, depth - 1, alpha, beta, maximizing).score)
  }

  /** `AlphaBeta(level).compute_next_move`: `alpha_beta_par` at depth
      `level - 1` with the reversed window `(i8::MAX, i8::MIN)`. Because the
      parallel search ignores its bounds and the root is a maximizing
      node, it picks exactly the movement `MinMax(level)` picks. */
  function AlphaBetaNextMove<M>(level: U8, t: Tree<M>): (r: Option<M>)
    requires level >= 1
    ensures r == MinMaxNextMove(level, t)
  {
    var r := AlphaBetaPar(t, level - 1, I8Max, I8Min, t.player);
    MinMaxParIsFonc(t, level - 1, t.player);
    assert r.best == MinMaxPar(t, level - 1, t.player).best by {
      if !IsLeaf(t, level - 1) {
        ReduceIsFold(LastMax, ChildValues(t, level - 1, t.player), |t.children|);
      }
    }
    r.best
  }

  /** The choice of `alpha_beta_par`: away from the leaves it returns the
      movement of the LAST child of largest value at maximizing nodes and
      of the LAST child of smallest value at minimizing nodes. */
  lemma AlphaBetaParChoice<M>(t: Tree<M>, depth: nat, alpha: I8, beta: I8, maximizing: bool)
    requires !IsLeaf(t, depth)
    ensures exists k: nat ::
              && Chosen(ParRule(t, maximizing), ChildValues(t, depth, maximizing), 0, |t.children|, k)
              && AlphaBetaPar(t, depth, alpha, beta, maximizing)
                 == Outcome(Some(t.children[k].mv), MinMaxValue(t, depth, maximizing))
  {
    var vs := ChildValues(t, depth, maximizing);
    assert vs[0..] == vs;
    var k := Reduce(ParRule(t, maximizing), vs, 0, |vs|);
    assert AlphaBetaPar(t, depth, alpha, beta, maximizing)
           == Outcome(Some(t.children[k].mv), MinMaxValue(t, depth, maximizing));
  }

  /** The bounds of `alpha_beta_par` are inert: any two windows give the
      same movement and the same score. */
  lemma AlphaBetaParIgnoresBounds<M>(t: Tree<M>, depth: nat, alpha1: I8, beta1: I8,
                                     alpha2: I8, beta2: I8, maximizing: bool)
    ensures AlphaBetaPar(t, depth, alpha1, beta1, maximizing) == AlphaBetaPar(t, depth, alpha2, beta2, maximizing)
  {
    if !IsLeaf(t, depth) {
      var vs := ChildValues(t, depth, maximizing);
      assert vs[0..] == vs;
    }
  }

  /** `alpha_beta_par` and `minmax_par` agree on the score everywhere and
      on the movement at maximizing nodes; at minimizing nodes they can
      differ only between children of equal value. */
  lemma AlphaBetaParVsMinMaxPar<M>(t: Tree<M>, depth: nat, alpha: I8, beta: I8, maximizing: bool)
    ensures AlphaBetaPar(t, depth, alpha, beta, maximizing).score == MinMaxPar(t, depth, maximizing).score
    ensures maximizing == t.player ==> AlphaBetaPar(t, depth, alpha, beta, maximizing) == MinMaxPar(t, depth, maximizing)
    ensures !IsLeaf(t, depth) && AlphaBetaPar(t, depth, alpha, beta, maximizing) != MinMaxPar(t, depth, maximizing) ==>
              exists i: nat, j: nat :: && i < j < |t.children|
                                       && ChildValues(t, depth, maximizing)[i] == ChildValues(t, depth, maximizing)[j]
                                       && ChildValues(t, depth, maximizing)[i] == MinMaxValue(t, depth, maximizing)
  {
    if !IsLeaf(t, depth) {
      var vs := ChildValues(t, depth, maximizing);
      assert vs[0..] == vs;
      var kp := Reduce(ParRule(t, maximizing), vs, 0, |vs|);
      var km := Reduce(StdRule(t, maximizing), vs, 0, |vs|);
      ChosenIsValue(t, depth, maximizing, ParRule(t, maximizing), kp);
      ChosenIsValue(t, depth, maximizing, StdRule(t, maximizing), km);
      if kp != km {
        if km < kp {
          assert vs[km] == vs[kp];
        } else {
          assert vs[kp] == vs[km];
        }
      }
    }
  }

  /** `alpha_beta_fonc` is `minmax_fonc`, movement included, whatever the
      bounds. */
  lemma AlphaBetaFoncIgnoresBounds<M>(t: Tree<M>, depth: nat, alpha1: I8, beta1: I8,
                                      alpha2: I8, beta2: I8, maximizing: bool)
    ensures AlphaBetaFonc(t, depth, alpha1, beta1, maximizing) == AlphaBetaFonc(t, depth, alpha2, beta2, maximizing)
  {
  }

  /** All six search functions share the base case: where the search
      stops they return no movement and the value, negated when the node's
      player is the maximizing player. */
  lemma SharedBaseCase<M>(t: Tree<M>, depth: nat, alpha: I8, beta: I8, maximizing: bool)
    requires IsLeaf(t, depth)
    ensures var base := Outcome(None, if maximizing == t.player then -t.value else t.value);
            && MinMaxIter(t, depth, maximizing) == base
            && MinMaxFonc(t, depth, maximizing) == base
            && MinMaxPar(t, depth, maximizing) == base
            && AlphaBetaPar(t, depth, alpha, beta, maximizing) == base
            && AlphaBeta(t, depth, alpha, beta, maximizing) == base
            && AlphaBetaFonc(t, depth, alpha, beta, maximizing) == base
  {
  }
}

=== FILE: alphabeta_window.dfy ===
/** What the sequential `alpha_beta` computes, measured against the
    minimax value: the window property of Knuth and Moore ("An Analysis of
    Alpha-Beta Pruning", 1975), the exact child each loop keeps, and the
    effect of a closed window.
 */
module AlphaBetaWindow {
  import opened GameTree
  import opened Choice
  import opened MinMaxEngine
  import opened AlphaBetaEngine

  /** The window property: for `alpha < beta`, a value at or below the
      window yields a score at or below `alpha`, a value at or above it
      yields a score at or above `beta`, and a value inside it is returned
      exactly. */
  lemma {:induction false} Window<M>(t: Tree<M>, depth: nat, alpha: I8, beta: I8, maximizing: bool)
    requires alpha < beta
    ensures var r := AlphaBeta(t, depth, alpha, beta, maximizing).score;
            var v := MinMaxValue(t, depth, maximizing);
            && (v <= alpha ==> r <= alpha)
            && (v >= beta ==> r >= beta)
            && (alpha < v < beta ==> r == v)
    decreases depth, 1
  {
    if !IsLeaf(t, depth) {
      if maximizing == t.player {
        MaxLoopWindow(t, depth, alpha, beta, maximizing, 0, None, I8Min);
      } else {
        MinLoopWindow(t, depth, alpha, beta, maximizing, 0, None, I8Max);
      }
    }
  }

  /** The window property of child `i`, searched with the loop's current
      window. */
  ghost predicate ChildInWindow<M>(t: Tree<M>, depth: nat, alpha: I8, beta: I8, maximizing: bool, i: nat)
    requires depth > 0 && i < |t.children|
  {
    var v := AlphaBetaRun(t.children[i].child, depth - 1, alpha, beta, maximizing).result.score;
    var w := ChildValues(t, depth, maximizing)[i];
    && (w <= alpha ==> v <= alpha)
    && (w >= beta ==> v >= beta)
    && (alpha < w < beta ==> v == w)
  }

  /** The window property for the subtree of child `i`. */
  lemma {:induction false} ChildWindow<M>(t: Tree<M>, depth: nat, alpha: I8, beta: I8, maximizing: bool, i: nat)
    requires depth > 0 && i < |t.children| && alpha < beta
    ensures ChildInWindow(t, depth, alpha, beta, maximizing, i)
    decreases depth, 0, 0
  {
    Window(t.children[i].child, depth - 1, alpha, beta, maximizing);
  }

  /** What the loop at a maximizing node returns when entered at child `i`
      with a running `alpha` below `beta`. With `m` the largest value among
      children `i..`: if `m <= alpha` the best pair is returned unchanged;
      otherwise the kept child is the first one whose value reaches `m`,
      or reaches `beta` when `m` does, and its score obeys the window
      property. */
  ghost predicate MaxLoopMeets<M>(t: Tree<M>, depth: nat, alpha: I8, beta: I8, maximizing: bool,
                            i: nat, bestChild: Option<M>, bestValue: I8)
    requires depth > 0 && i < |t.children|
  {
    var vs := ChildValues(t, depth, maximizing);
    var m := MaxFrom(vs, i);
    var r := MaxLoop(t, depth, alpha, beta, maximizing, i, bestChild, bestValue).result;
    && (m <= alpha ==> r == Outcome(bestChild, bestValue))
    && (alpha < m ==> && FirstAtLeast(vs, Min(m, beta), i) < |vs|
                      && r.best == Some(t.children[FirstAtLeast(vs, Min(m, beta), i)].mv))
    && (alpha < m < beta ==> r.score == m)
    && (beta <= m ==> r.score >= beta)
  }

  /** The dual of `MaxLoopMeets` for the loop at a minimizing node, with
      `m` the smallest value among children `i..`. */
  ghost predicate MinLoopMeets<M>(t: Tree<M>, depth: nat, alpha: I8, beta: I8, maximizing: bool,
                            i: nat, bestChild: Option<M>, bestValue: I8)
    requires depth > 0 && i < |t.children|
  {
    var vs := ChildValues(t, depth, maximizing);
    var m := MinFrom(vs, i);
    var r := MinLoop(t, depth, alpha, beta, maximizing, i, bestChild, bestValue).result;
    && (beta <= m ==> r == Outcome(bestChild, bestValue))
    && (m < beta ==> && FirstAtMost(vs, Max(m, alpha), i) < |vs|
                     && r.best == Some(t.children[FirstAtMost(vs, Max(m, alpha), i)].mv))
    && (alpha < m < beta ==> r.score == m)
    && (m <= alpha ==> r.score <= alpha)
  }

  /** The loop at a maximizing node keeps its contract, by induction
      on the children still to visit. */
  lemma {:induction false} MaxLoopWindow<M>(t: Tree<M>, depth: nat, alpha: I8, beta: I8, maximizing: bool,
                                            i: nat, bestChild: Option<M>, bestValue: I8)
    requires depth > 0 && i < |t.children|
    requires alpha < beta
    ensures MaxLoopMeets(t, depth, alpha, beta, maximizing, i, bestChild, bestValue)
    decreases depth, 0, |t.children| - i
  {
    ChildWindow(t, depth, alpha, beta, maximizing, i);
    var v := AlphaBetaRun(t.children[i].child, depth - 1, alpha, beta, maximizing).result.score;
    if i + 1 == |t.children| {
      MaxLoopLast(t, depth, alpha, beta, maximizing, i, bestChild, bestValue);
    } else if v > alpha && v < beta {
      MaxLoopWindow(t, depth, v, beta, maximizing, i + 1, Some(t.children[i].mv), v);
      MaxLoopRaised(t, depth, alpha, beta, maximizing, i, bestChild, bestValue);
    } else if v > alpha {
      MaxLoopCut(t, depth, alpha, beta, maximizing, i, bestChild, bestValue);
    } else {
      MaxLoopWindow(t, depth, alpha, beta, maximizing, i + 1, bestChild, bestValue);
      MaxLoopKept(t, depth, alpha, beta, maximizing, i, bestChild, bestValue);
    }
  }

  /** Maximizing loop, last child. */
  lemma MaxLoopLast<M>(t: Tree<M>, depth: nat, alpha: I8, beta: I8, maximizing: bool,
                       i: nat, bestChild: Option<M>, bestValue: I8)
    requires depth > 0 && i + 1 == |t.children| && alpha < beta
    requires ChildInWindow(t, depth, alpha, beta, maximizing, i)
    ensures MaxLoopMeets(t, depth, alpha, beta, maximizing, i, bestChild, bestValue)
  {
    var vs := ChildValues(t, depth, maximizing);
    assert MaxFrom(vs, i) == vs[i];
    MaxLoopStep(t, depth, alpha, beta, maximizing, i, bestChild, bestValue);
  }

  /** Maximizing loop: child `i` raises `alpha` and stays below `beta`. */
  lemma MaxLoopRaised<M>(t: Tree<M>, depth: nat, alpha: I8, beta: I8, maximizing: bool,
                         i: nat, bestChild: Option<M>, bestValue: I8)
    requires depth > 0 && i + 1 < |t.children| && alpha < beta
    requires ChildInWindow(t, depth, alpha, beta, maximizing, i)
    requires var v := AlphaBetaRun(t.children[i].child, depth - 1, alpha, beta, maximizing).result.score;
             && alpha < v < beta
             && MaxLoopMeets(t, depth, v, beta, maximizing, i + 1, Some(t.children[i].mv), v)
    ensures MaxLoopMeets(t, depth, alpha, beta, maximizing, i, bestChild, bestValue)
  {
    var vs := ChildValues(t, depth, maximizing);
    var m := MaxFrom(vs, i);
    var rest := MaxFrom(vs, i + 1);
    assert m == Max(vs[i], rest);
    MaxLoopStep(t, depth, alpha, beta, maximizing, i, bestChild, bestValue);
    if rest <= vs[i] {
      assert FirstAtLeast(vs, Min(m, beta), i) == i;
    } else {
      assert FirstAtLeast(vs, Min(m, beta), i) == FirstAtLeast(vs, Min(m, beta), i + 1);
    }
  }

  /** Maximizing loop: child `i` raises `alpha` to `beta` or beyond. */
  lemma MaxLoopCut<M>(t: Tree<M>, depth: nat, alpha: I8, beta: I8, maximizing: bool,
                      i: nat, bestChild: Option<M>, bestValue: I8)
    requires depth > 0 && i < |t.children| && alpha < beta
    requires ChildInWindow(t, depth, alpha, beta, maximizing, i)
    requires AlphaBetaRun(t.children[i].child, depth - 1, alpha, beta, maximizing).result.score >= beta
    ensures MaxLoopMeets(t, depth, alpha, beta, maximizing, i, bestChild, bestValue)
  {
    var vs := ChildValues(t, depth, maximizing);
    MaxLoopStep(t, depth, alpha, beta, maximizing, i, bestChild, bestValue);
    assert FirstAtLeast(vs, Min(MaxFrom(vs, i), beta), i) == i;
  }

  /** Maximizing loop: child `i` does not raise `alpha`. */
  lemma MaxLoopKept<M>(t: Tree<M>, depth: nat, alpha: I8, beta: I8, maximizing: bool,
                       i: nat, bestChild: Option<M>, bestValue: I8)
    requires depth > 0 && i + 1 < |t.children| && alpha < beta
    requires ChildInWindow(t, depth, alpha, beta, maximizing, i)
    requires AlphaBetaRun(t.children[i].child, depth - 1, alpha, beta, maximizing).result.score <= alpha
    requires MaxLoopMeets(t, depth, alpha, beta, maximizing, i + 1, bestChild, bestValue)
    ensures MaxLoopMeets(t, depth, alpha, beta, maximizing, i, bestChild, bestValue)
  {
    var vs := ChildValues(t, depth, maximizing);
    var m := MaxFrom(vs, i);
    assert m == Max(vs[i], MaxFrom(vs, i + 1));
    MaxLoopStep(t, depth, alpha, beta, maximizing, i, bestChild, bestValue);
    if alpha < m {
      assert FirstAtLeast(vs, Min(m, beta), i) == FirstAtLeast(vs, Min(m, beta), i + 1);
    }
  }

  /** One iteration of the maximizing loop. */
  lemma MaxLoopStep<M>(t: Tree<M>, depth: nat, alpha: I8, beta: I8, maximizing: bool,
                       i: nat, bestChild: Option<M>, bestValue: I8)
    requires depth > 0 && i < |t.children|
    ensures var v := AlphaBetaRun(t.children[i].child, depth - 1, alpha, beta, maximizing).result.score;
            MaxLoop(t, depth, alpha, beta, maximizing, i, bestChild, bestValue).result
            == if v > alpha then
                 if v >= beta || i + 1 == |t.children| then Outcome(Some(t.children[i].mv), v)
                 else MaxLoop(t, depth, v, beta, maximizing, i + 1, Some(t.children[i].mv), v).result
               else
                 if alpha >= beta || i + 1 == |t.children| then Outcome(bestChild, bestValue)
                 else MaxLoop(t, depth, alpha, beta, maximizing, i + 1, bestChild, bestValue).result
  {
  }

  /** The loop at a minimizing node keeps its contract. */
  lemma {:induction false} MinLoopWindow<M>(t: Tree<M>, depth: nat, alpha: I8, beta: I8, maximizing: bool,
                                            i: nat, bestChild: Option<M>, bestValue: I8)
    requires depth > 0 && i < |t.children|
    requires alpha < beta
    ensures MinLoopMeets(t, depth, alpha, beta, maximizing, i, bestChild, bestValue)
    decreases depth, 0, |t.children| - i
  {
    ChildWindow(t, depth, alpha, beta, maximizing, i);
    var v := AlphaBetaRun(t.children[i].child, depth - 1, alpha, beta, maximizing).result.score;
    if i + 1 == |t.children| {
      MinLoopLast(t, depth, alpha, beta, maximizing, i, bestChild, bestValue);
    } else if v < beta && alpha < v {
      MinLoopWindow(t, depth, alpha, v, maximizing, i + 1, Some(t.children[i].mv), v);
      MinLoopLowered(t, depth, alpha, beta, maximizing, i, bestChild, bestValue);
    } else if v < beta {
      MinLoopCut(t, depth, alpha, beta, maximizing, i, bestChild, bestValue);
    } else {
      MinLoopWindow(t, depth, alpha, beta, maximizing, i + 1, bestChild, bestValue);
      MinLoopKept(t, depth, alpha, beta, maximizing, i, bestChild, bestValue);
    }
  }

  /** Minimizing loop, last child. */
  lemma MinLoopLast<M>(t: Tree<M>, depth: nat, alpha: I8, beta: I8, maximizing: bool,
                       i: nat, bestChild: Option<M>, bestValue: I8)
    requires depth > 0 && i + 1 == |t.children| && alpha < beta
    requires ChildInWindow(t, depth, alpha, beta, maximizing, i)
    ensures MinLoopMeets(t, depth, alpha, beta, maximizing, i, bestChild, bestValue)
  {
    var vs := ChildValues(t, depth, maximizing);
    assert MinFrom(vs, i) == vs[i];
    MinLoopStep(t, depth, alpha, beta, maximizing, i, bestChild, bestValue);
  }

  /** Minimizing loop: child `i` lowers `beta` and stays above `alpha`. */
  lemma MinLoopLowered<M>(t: Tree<M>, depth: nat, alpha: I8, beta: I8, maximizing: bool,
                          i: nat, bestChild: Option<M>, bestValue: I8)
    requires depth > 0 && i + 1 < |t.children| && alpha < beta
    requires ChildInWindow(t, depth, alpha, beta, maximizing, i)
    requires var v := AlphaBetaRun(t.children[i].child, depth - 1, alpha, beta, maximizing).result.score;
             && alpha < v < beta
             && MinLoopMeets(t, depth, alpha, v, maximizing, i + 1, Some(t.children[i].mv), v)
    ensures MinLoopMeets(t, depth, alpha, beta, maximizing, i, bestChild, bestValue)
  {
    var vs := ChildValues(t, depth, maximizing);
    var m := MinFrom(vs, i);
    var rest := MinFrom(vs, i + 1);
    assert m == Min(vs[i], rest);
    MinLoopStep(t, depth, alpha, beta, maximizing, i, bestChild, bestValue);
    if rest >= vs[i] {
      assert FirstAtMost(vs, Max(m, alpha), i) == i;
    } else {
      assert FirstAtMost(vs, Max(m, alpha), i) == FirstAtMost(vs, Max(m, alpha), i + 1);
    }
  }

  /** Minimizing loop: child `i` lowers `beta` to `alpha` or below. */
  lemma MinLoopCut<M>(t: Tree<M>, depth: nat, alpha: I8, beta: I8, maximizing: bool,
                      i: nat, bestChild: Option<M>, bestValue: I8)
    requires depth > 0 && i < |t.children| && alpha < beta
    requires ChildInWindow(t, depth, alpha, beta, maximizing, i)
    requires AlphaBetaRun(t.children[i].child, depth - 1, alpha, beta, maximizing).result.score <= alpha
    ensures MinLoopMeets(t, depth, alpha, beta, maximizing, i, bestChild, bestValue)
  {
    var vs := ChildValues(t, depth, maximizing);
    MinLoopStep(t, depth, alpha, beta, maximizing, i, bestChild, bestValue);
    assert FirstAtMost(vs, Max(MinFrom(vs, i), alpha), i) == i;
  }

  /** Minimizing loop: child `i` does not lower `beta`. */
  lemma MinLoopKept<M>(t: Tree<M>, depth: nat, alpha: I8, beta: I8, maximizing: bool,
                       i: nat, bestChild: Option<M>, bestValue: I8)
    requires depth > 0 && i + 1 < |t.children| && alpha < beta
    requires ChildInWindow(t, depth, alpha, beta, maximizing, i)
    requires AlphaBetaRun(t.children[i].child, depth - 1, alpha, beta, maximizing).result.score >= beta
    requires MinLoopMeets(t, depth, alpha, beta, maximizing, i + 1, bestChild, bestValue)
    ensures MinLoopMeets(t, depth, alpha, beta, maximizing, i, bestChild, bestValue)
  {
    var vs := ChildValues(t, depth, maximizing);
    var m := MinFrom(vs, i);
    assert m == Min(vs[i], MinFrom(vs, i + 1));
    MinLoopStep(t, depth, alpha, beta, maximizing, i, bestChild, bestValue);
    if m < beta {
      assert FirstAtMost(vs, Max(m, alpha), i) == FirstAtMost(vs, Max(m, alpha), i + 1);
    }
  }

  /** One iteration of the minimizing loop. */
  lemma MinLoopStep<M>(t: Tree<M>, depth: nat, alpha: I8, beta: I8, maximizing: bool,
                       i: nat, bestChild: Option<M>, bestValue: I8)
    requires depth > 0 && i < |t.children|
    ensures var v := AlphaBetaRun(t.children[i].child, depth - 1, alpha, beta, maximizing).result.score;
            MinLoop(t, depth, alpha, beta, maximizing, i, bestChild, bestValue).result
            == if v < beta then
                 if alpha >= v || i + 1 == |t.children| then Outcome(Some(t.children[i].mv), v)
                 else MinLoop(t, depth, alpha, v, maximizing, i + 1, Some(t.children[i].mv), v).result
               else
                 if alpha >= beta || i + 1 == |t.children| then Outcome(bestChild, bestValue)
                 else MinLoop(t, depth, alpha, beta, maximizing, i + 1, bestChild, bestValue).result
  {
  }

  /** The return rule at a maximizing node with `alpha < beta`: no movement
      and `i8::MIN` exactly when no child's value exceeds `alpha`; otherwise
      the FIRST child whose value reaches the node's value (or `beta`, when
      the value reaches `beta`): a later child that only ties never
      replaces it, because the comparison with `alpha` is strict. */
  lemma AlphaBetaMaxChoice<M>(t: Tree<M>, depth: nat, alpha: I8, beta: I8, maximizing: bool)
    requires !IsLeaf(t, depth) && maximizing == t.player
    requires alpha < beta
    ensures var vs := ChildValues(t, depth, maximizing);
            var v := MinMaxValue(t, depth, maximizing);
            var r := AlphaBeta(t, depth, alpha, beta, maximizing);
            && (v <= alpha <==> r == Outcome(None, I8Min))
            && (alpha < v ==> && FirstAtLeast(vs, Min(v, beta), 0) < |vs|
                              && r.best == Some(t.children[FirstAtLeast(vs, Min(v, beta), 0)].mv))
  {
    MaxLoopWindow(t, depth, alpha, beta, maximizing, 0, None, I8Min);
  }

  /** The return rule at a minimizing node with `alpha < beta`: no movement
      and `i8::MAX` exactly when no child's value is below `beta`; otherwise
      the FIRST child whose value reaches down to the node's value (or to
      `alpha`, when the value is at or below `alpha`). */
  lemma AlphaBetaMinChoice<M>(t: Tree<M>, depth: nat, alpha: I8, beta: I8, maximizing: bool)
    requires !IsLeaf(t, depth) && maximizing != t.player
    requires alpha < beta
    ensures var vs := ChildValues(t, depth, maximizing);
            var v := MinMaxValue(t, depth, maximizing);
            var r := AlphaBeta(t, depth, alpha, beta, maximizing);
            && (beta <= v <==> r == Outcome(None, I8Max))
            && (v < beta ==> && FirstAtMost(vs, Max(v, alpha), 0) < |vs|
                             && r.best == Some(t.children[FirstAtMost(vs, Max(v, alpha), 0)].mv))
  {
    MinLoopWindow(t, depth, alpha, beta, maximizing, 0, None, I8Max);
  }

  /** With the full window `(i8::MIN, i8::MAX)` the sequential search
      returns the Min-Max score. */
  lemma FullWindowIsMinMax<M>(t: Tree<M>, depth: nat, maximizing: bool)
    ensures AlphaBeta(t, depth, I8Min, I8Max, maximizing).score == MinMaxFonc(t, depth, maximizing).score
  {
    Window(t, depth, I8Min, I8Max, maximizing);
  }

  /** Entered with `alpha >= beta` (for instance the reversed window
      `(i8::MAX, i8::MIN)`), the sequential search examines only the first
      movement, so it makes strictly fewer calls than `minmax_fonc` as soon
      as there is a second movement to skip. */
  lemma ClosedWindowFirstChildOnly<M>(t: Tree<M>, depth: nat, alpha: I8, beta: I8, maximizing: bool)
    requires !IsLeaf(t, depth) && alpha >= beta
    ensures var r := AlphaBetaRun(t, depth, alpha, beta, maximizing);
            var first := AlphaBetaRun(t.children[0].child, depth - 1, alpha, beta, maximizing);
            && r.nodes == 1 + first.nodes
            && (r.result.best.None? || r.result.best == Some(t.children[0].mv))
            && (|t.children| > 1 ==> r.nodes < MinMaxNodes(t, depth))
  {
  }
}

=== FILE: choice.dfy ===
/** Selecting one child out of a sequence of scores.

    Each engine scores a node's children and keeps one of them. The
    sequential variants fold left over the children in enumeration order
    (`Iterator::max_by_key`, `Iterator::min_by_key`); the parallel variants
    reduce adjacent blocks of children and combine the partial winners in
    order (`reduce_with`, rayon's `max_by_key` and `min_by_key`). All of
    them are described here on indices into the score sequence, by the
    tie rule of the binary combiner they use.
 */
module Choice {

  /** The tie rule of a combiner that keeps one of two candidates, the
      left one coming earlier in enumeration order.
      - `LastMax`: keep the left one only when it is strictly greater
        (`max_by`, and the `value1 > value2` closure of `alpha_beta_par`);
      - `FirstMin`: keep the right one only when it is strictly smaller
        (`min_by`);
      - `LastMin`: keep the left one only when it is strictly smaller
        (the `value1 < value2` closure of `alpha_beta_par`). */
  datatype Rule = LastMax | FirstMin | LastMin

  /** The combiner: `i` is the earlier candidate, `j` the later one. It
      keeps a candidate of larger (`LastMax`) or smaller score, and on a
      tie the earlier one only under `FirstMin`. */
  function Pick(rule: Rule, s: seq<int>, i: nat, j: nat): (k: nat)
    requires i < j < |s|
    ensures k == i || k == j
    ensures rule == LastMax ==> s[k] >= s[i] && s[k] >= s[j]
    ensures rule != LastMax ==> s[k] <= s[i] && s[k] <= s[j]
    ensures s[i] == s[j] ==> (k == i <==> rule == FirstMin)
  {
    match rule
    case LastMax => if s[i] > s[j] then i else j
    case FirstMin => if s[j] < s[i] then j else i
    case LastMin => if s[i] < s[j] then i else j
  }

  /** `k` is the index the rule designates among `s[lo..hi]`. */
  predicate Chosen(rule: Rule, s: seq<int>, lo: nat, hi: nat, k: nat)
  {
    && lo <= k < hi <= |s|
    && match rule
       case LastMax =>
         && (forall j :: lo <= j < hi ==> s[j] <= s[k])
         && (forall j :: k < j < hi ==> s[j] < s[k])
       case FirstMin =>
         && (forall j :: lo <= j < hi ==> s[k] <= s[j])
         && (forall j :: lo <= j < k ==> s[k] < s[j])
       case LastMin =>
         && (forall j :: lo <= j < hi ==> s[k] <= s[j])
         && (forall j :: k < j < hi ==> s[k] < s[j])
  }

  /** At most one index is designated by a rule. */
  lemma ChosenUnique(rule: Rule, s: seq<int>, lo: nat, hi: nat, k1: nat, k2: nat)
    requires Chosen(rule, s, lo, hi, k1) && Chosen(rule, s, lo, hi, k2)
    ensures k1 == k2
  {
    assert s[k1] <= s[k2] && s[k2] <= s[k1] by {
      match rule
      case LastMax =>
      case FirstMin =>
      case LastMin =>
    }
  }

  /** Combining the winners of two adjacent blocks yields the winner of
      their union: the combiners are associative in effect. */
  lemma PickJoins(rule: Rule, s: seq<int>, lo: nat, mid: nat, hi: nat, k1: nat, k2: nat)
    requires Chosen(rule, s, lo, mid, k1) && Chosen(rule, s, mid, hi, k2)
    ensures Chosen(rule, s, lo, hi, Pick(rule, s, k1, k2))
  {
  }

  /** The sequential iterator's fold over `s[0..hi]`: the accumulator is
      combined with each next element in turn. */
  function Fold(rule: Rule, s: seq<int>, hi: nat): (k: nat)
    requires 0 < hi <= |s|
    ensures Chosen(rule, s, 0, hi, k)
  {
    if hi == 1 then 0
    else
      var acc := Fold(rule, s, hi - 1);
      PickJoins(rule, s, 0, hi - 1, hi, acc, hi - 1);
      Pick(rule, s, acc, hi - 1)
  }

  /** The parallel reduction over `s[lo..hi]`: the block is split, both
      halves are reduced, and the two winners are combined in order. The
      scheduler picks the split point; the midpoint stands for it here and
      `ReduceSplitAnywhere` shows the choice is irrelevant. */
  function Reduce(rule: Rule, s: seq<int>, lo: nat, hi: nat): (k: nat)
    requires lo < hi <= |s|
    ensures Chosen(rule, s, lo, hi, k)
    decreases hi - lo
  {
    if hi - lo == 1 then lo
    else
      var mid := (lo + hi) / 2;
      var left := Reduce(rule, s, lo, mid);
      var right := Reduce(rule, s, mid, hi);
      PickJoins(rule, s, lo, mid, hi, left, right);
      Pick(rule, s, left, right)
  }

  /** Splitting a block at any point and combining the halves' winners
      gives the same index as the reduction itself. */
  lemma ReduceSplitAnywhere(rule: Rule, s: seq<int>, lo: nat, mid: nat, hi: nat)
    requires lo < mid < hi <= |s|
    ensures Pick(rule, s, Reduce(rule, s, lo, mid), Reduce(rule, s, mid, hi)) == Reduce(rule, s, lo, hi)
  {
    var left := Reduce(rule, s, lo, mid);
    var right := Reduce(rule, s, mid, hi);
    PickJoins(rule, s, lo, mid, hi, left, right);
    ChosenUnique(rule, s, lo, hi, Pick(rule, s, left, right), Reduce(rule, s, lo, hi));
  }

  /** The parallel reduction and the sequential fold agree. */
  lemma ReduceIsFold(rule: Rule, s: seq<int>, hi: nat)
    requires 0 < hi <= |s|
    ensures Reduce(rule, s, 0, hi) == Fold(rule, s, hi)
  {
    ChosenUnique(rule, s, 0, hi, Reduce(rule, s, 0, hi), Fold(rule, s, hi));
  }

  function Max(a: int, b: int): int { if a >= b then a else b }
  function Min(a: int, b: int): int { if a <= b then a else b }

  /** The largest of `s[i..]`. */
  function MaxFrom(s: seq<int>, i: nat): (m: int)
    requires i < |s|
    ensures forall j :: i <= j < |s| ==> s[j] <= m
    ensures exists j :: i <= j < |s| && s[j] == m
    decreases |s| - i
  {
    if i == |s| - 1 then s[i] else Max(s[i], MaxFrom(s, i + 1))
  }

  /** The smallest of `s[i..]`. */
  function MinFrom(s: seq<int>, i: nat): (m: int)
    requires i < |s|
    ensures forall j :: i <= j < |s| ==> m <= s[j]
    ensures exists j :: i <= j < |s| && s[j] == m
    decreases |s| - i
  {
    if i == |s| - 1 then s[i] else Min(s[i], MinFrom(s, i + 1))
  }

  /** The first index from `i` on whose score is at least `x`, or `|s|`. */
  function FirstAtLeast(s: seq<int>, x: int, i: nat): (k: nat)
    requires i <= |s|
    ensures i <= k <= |s|
    ensures k < |s| ==> s[k] >= x
    ensures forall j :: i <= j < k ==> s[j] < x
    decreases |s| - i
  {
    if i == |s| then i else if s[i] >= x then i else FirstAtLeast(s, x, i + 1)
  }

  /** The first index from `i` on whose score is at most `x`, or `|s|`. */
  function FirstAtMost(s: seq<int>, x: int, i: nat): (k: nat)
    requires i <= |s|
    ensures i <= k <= |s|
    ensures k < |s| ==> s[k] <= x
    ensures forall j :: i <= j < k ==> s[j] > x
    decreases |s| - i
  {
    if i == |s| then i else if s[i] <= x then i else FirstAtMost(s, x, i + 1)
  }

  /** The designated index of a `LastMax` rule holds the maximum. */
  lemma ChosenMax(s: seq<int>, k: nat)
    requires Chosen(LastMax, s, 0, |s|, k)
    ensures s[k] == MaxFrom(s, 0)
  {
    var j :| 0 <= j < |s| && s[j] == MaxFrom(s, 0);
  }

  /** The designated index of a minimum rule holds the minimum. */
  lemma ChosenMin(rule: Rule, s: seq<int>, k: nat)
    requires rule != LastMax
    requires Chosen(rule, s, 0, |s|, k)
    ensures s[k] == MinFrom(s, 0)
  {
    var j :| 0 <= j < |s| && s[j] == MinFrom(s, 0);
  }
}

=== FILE: game_tree.dfy ===
/** The game-state abstraction the search engines consume.

    A `Configuration` of the board is replaced by a finite game tree: each
    node records whose turn it is and its heuristic value, and lists its
    legal movements in enumeration order, each paired with the position
    that playing it produces. `movements()` is the order of `children`,
    and `play(m)` is the child stored next to `m`.
 */
module GameTree {

  /** Rust's `i8`: every score the engines return fits in it. */
  type I8 = x: int | -128 <= x <= 127

  const I8Min: I8 := -128
  const I8Max: I8 := 127

  /** A heuristic value whose negation is still an `i8` (so `-value()`
      never overflows). */
  type Eval = x: int | -127 <= x <= 127

  /** Rust's `u8`, the type of the strategies' depth setting. */
  type U8 = x: int | 0 <= x <= 255

  datatype Option<+T> = None | Some(value: T)

  /** One position: `player` is `current_player`, `value` is `value()`. */
  datatype Tree<M> = Node(player: bool, value: Eval, children: seq<Branch<M>>)

  /** A legal movement together with the position it leads to. */
  datatype Branch<M> = Branch(mv: M, child: Tree<M>)

  /** What every engine returns: `(Option<Movement>, i8)`. */
  datatype Outcome<M> = Outcome(best: Option<M>, score: I8)

  /** The engines stop recursing when the depth budget is spent or the
      position has no legal movement. */
  predicate IsLeaf<M>(t: Tree<M>, depth: nat)
  {
    depth == 0 || |t.children| == 0
  }

  /** The score of a node where the search stops. The value is negated
      when the node's player IS the maximizing player. */
  function LeafScore<M>(t: Tree<M>, maximizing: bool): (s: I8)
    ensures -127 <= s <= 127
    ensures s == t.value || s == -t.value
    ensures (maximizing == t.player) == (s == -t.value) || t.value == 0
  {
    if maximizing == t.player then -t.value else t.value
  }

  /** The shared base-case result `(None, ±value())`. */
  function Base<M>(t: Tree<M>, maximizing: bool): (r: Outcome<M>)
    ensures r.best.None?
    ensures r.score == LeafScore(t, maximizing)
  {
    Outcome(None, LeafScore(t, maximizing))
  }
}

=== FILE: minmax.dfy ===
/** The Min-Max engine (`src/strategy/minmax.rs`): the reference minimax
    value of a position and the three search functions that compute it,
    plus the `MinMax` strategy's entry point.

    Scores are not negated on the way up: the sign is fixed once at the
    leaves (`LeafScore`) relative to the maximizing player chosen at the
    root, and inner nodes take a maximum or a minimum depending on whether
    their player is that maximizing player.
 */
module MinMaxEngine {
  import opened GameTree
  import opened Choice

  /** The minimax value of `t` searched `depth` plies deep: the leaf score
      where the search stops, otherwise the largest of the children's
      values at the maximizing player's nodes and the smallest elsewhere. */
  function MinMaxValue<M>(t: Tree<M>, depth: nat, maximizing: bool): (v: int)
    ensures -127 <= v <= 127
    decreases depth, 1
  {
    if IsLeaf(t, depth) then LeafScore(t, maximizing)
    else if t.player == maximizing then MaxFrom(ChildValues(t, depth, maximizing), 0)
    else MinFrom(ChildValues(t, depth, maximizing), 0)
  }

  /** The minimax values of the children, one ply shallower. */
  function ChildValues<M>(t: Tree<M>, depth: nat, maximizing: bool): (vs: seq<int>)
    requires depth > 0
    ensures |vs| == |t.children|
    ensures forall i :: 0 <= i < |vs| ==> -127 <= vs[i] <= 127
    decreases depth, 0
  {
    seq(|t.children|, i requires 0 <= i < |t.children| =>
      MinMaxValue(t.children[i].child, depth - 1, maximizing))
  }

  /** The combiner `minmax_fonc` and `minmax_par` use at a node:
      `max_by_key` for the maximizing player, `min_by_key` otherwise. */
  function StdRule<M>(t: Tree<M>, maximizing: bool): Rule
  {
    if t.player == maximizing then LastMax else FirstMin
  }

  /** A child designated among the children's values by a maximum rule at
      a maximizing node, or by a minimum rule elsewhere, carries the node's
      own minimax value. */
  lemma ChosenIsValue<M>(t: Tree<M>, depth: nat, maximizing: bool, rule: Rule, k: nat)
    requires !IsLeaf(t, depth)
    requires (rule == LastMax) == (t.player == maximizing)
    requires Chosen(rule, ChildValues(t, depth, maximizing), 0, |t.children|, k)
    ensures ChildValues(t, depth, maximizing)[k] == MinMaxValue(t, depth, maximizing)
  {
    if rule == LastMax {
      ChosenMax(ChildValues(t, depth, maximizing), k);
    } else {
      ChosenMin(rule, ChildValues(t, depth, maximizing), k);
    }
  }

  /** `minmax_iter`: it returns the base-case result before reaching its
      loop, so it behaves like a depth-0 search whatever `depth` is. */
  function MinMaxIter<M>(t: Tree<M>, depth: nat, maximizing: bool): (r: Outcome<M>)
    ensures r == MinMaxFonc(t, 0, maximizing)
    ensures r.score == MinMaxValue(t, 0, maximizing)
  {
    Base(t, maximizing)
  }

  /** `minmax_fonc`: each child is scored one ply shallower and the
      children are folded with `max_by_key` or `min_by_key`. */
  function MinMaxFonc<M>(t: Tree<M>, depth: nat, maximizing: bool): (r: Outcome<M>)
    ensures r.best.Some? <==> !IsLeaf(t, depth)
    ensures r.score == MinMaxValue(t, depth, maximizing)
    decreases depth, 1
  {
    if IsLeaf(t, depth) then Base(t, maximizing)
    else
      var scores := FoncScores(t, depth, maximizing);
      var k := Fold(StdRule(t, maximizing), scores, |scores|);
      ChosenIsValue(t, depth, maximizing, StdRule(t, maximizing), k);
      Outcome(Some(t.children[k].mv), scores[k])
  }

  /** The `(child, score)` pairs `minmax_fonc` maps the movements to. */
  function FoncScores<M>(t: Tree<M>, depth: nat, maximizing: bool): (s: seq<int>)
    requires depth > 0
    ensures s == ChildValues(t, depth, maximizing)
    decreases depth, 0
  {
    seq(|t.children|, i requires 0 <= i < |t.children| =>
      MinMaxFonc(t.children[i].child, depth - 1, maximizing).score)
  }

  /** `minmax_par`: the same scoring, but the children are reduced with
      rayon's `max_by_key` or `min_by_key`. */
  function MinMaxPar<M>(t: Tree<M>, depth: nat, maximizing: bool): (r: Outcome<M>)
    ensures r.best.Some? <==> !IsLeaf(t, depth)
    ensures r.score == MinMaxValue(t, depth, maximizing)
    decreases depth, 1
  {
    if IsLeaf(t, depth) then Base(t, maximizing)
    else
      var scores := ParScores(t, depth, maximizing);
      var k := Reduce(StdRule(t, maximizing), scores, 0, |scores|);
      ChosenIsValue(t, depth, maximizing, StdRule(t, maximizing), k);
      Outcome(Some(t.children[k].mv), scores[k])
  }

  /** The `(child, score)` pairs `minmax_par` maps the movements to. */
  function ParScores<M>(t: Tree<M>, depth: nat, maximizing: bool): (s: seq<int>)
    requires depth > 0
    ensures s == ChildValues(t, depth, maximizing)
    decreases depth, 0
  {
    seq(|t.children|, i requires 0 <= i < |t.children| =>
      MinMaxPar(t.children[i].child, depth - 1, maximizing).score)
  }

  /** Tie-breaking of `minmax_fonc`: away from the leaves it returns the
      movement of the LAST child with the largest value at the maximizing
      player's nodes and of the FIRST child with the smallest value
      elsewhere, together with that value. */
  lemma MinMaxFoncChoice<M>(t: Tree<M>, depth: nat, maximizing: bool)
    requires !IsLeaf(t, depth)
    ensures exists k: nat :: && Chosen(StdRule(t, maximizing), ChildValues(t, depth, maximizing), 0, |t.children|, k)
                        && MinMaxFonc(t, depth, maximizing) == Outcome(Some(t.children[k].mv), MinMaxValue(t, depth, maximizing))
  {
    var scores := FoncScores(t, depth, maximizing);
    var k := Fold(StdRule(t, maximizing), scores, |scores|);
    assert MinMaxFonc(t, depth, maximizing) == Outcome(Some(t.children[k].mv), MinMaxValue(t, depth, maximizing));
  }

  /** `minmax_par` returns exactly what `minmax_fonc` returns, movement
      included: rayon combines partial results in enumeration order and
      both combiners are insensitive to where the work is split. */
  lemma MinMaxParIsFonc<M>(t: Tree<M>, depth: nat, maximizing: bool)
    ensures MinMaxPar(t, depth, maximizing) == MinMaxFonc(t, depth, maximizing)
  {
    if !IsLeaf(t, depth) {
      ReduceIsFold(StdRule(t, maximizing), ChildValues(t, depth, maximizing), |t.children|);
    }
  }

  /** Away from the leaves `minmax_iter` never agrees with `minmax_fonc`:
      it returns no movement where a movement exists. */
  lemma MinMaxIterSkipsSearch<M>(t: Tree<M>, depth: nat, maximizing: bool)
    requires !IsLeaf(t, depth)
    ensures MinMaxIter(t, depth, maximizing).best.None?
    ensures MinMaxIter(t, depth, maximizing) != MinMaxFonc(t, depth, maximizing)
  {
  }

  /** The number of calls `minmax_fonc` makes: it never skips a child, so
      it visits every node of the tree cut at `depth`. */
  function MinMaxNodes<M>(t: Tree<M>, depth: nat): (n: nat)
    ensures n >= 1
    ensures !IsLeaf(t, depth) ==> n > |t.children|
    decreases depth, 1
  {
    if IsLeaf(t, depth) then 1 else 1 + SubtreeNodes(t, depth, 0)
  }

  /** The calls made below the children `i..` of `t`. */
  function SubtreeNodes<M>(t: Tree<M>, depth: nat, i: nat): (n: nat)
    requires depth > 0 && i <= |t.children|
    ensures i < |t.children| ==> n >= |t.children| - i
    decreases depth, 0, |t.children| - i
  {
    if i == |t.children| then 0
    else MinMaxNodes(t.children[i].child, depth - 1) + SubtreeNodes(t, depth, i + 1)
  }

  /** `MinMax(level).compute_next_move`: a parallel search `level - 1`
      plies deep for the player to move. It returns no movement exactly
      when `level` is 1 or the position has no legal movement, and
      otherwise the movement of the last child of largest value. */
  function MinMaxNextMove<M>(level: U8, t: Tree<M>): (r: Option<M>)
    requires level >= 1
    ensures r.None? <==> level == 1 || |t.children| == 0
    ensures r.Some? ==> && level > 1
                        && exists k: nat :: && Chosen(LastMax, ChildValues(t, level - 1, t.player), 0, |t.children|, k)
                                       && r == Some(t.children[k].mv)
  {
    RootChoice(t, level - 1);
    MinMaxPar(t, level - 1, t.player).best
  }

  /** At the root, where the player to move is the maximizing one, the
      parallel search returns the last child of largest value whenever it
      searches at all. */
  lemma RootChoice<M>(t: Tree<M>, depth: nat)
    ensures !IsLeaf(t, depth) ==>
              exists k: nat :: && Chosen(LastMax, ChildValues(t, depth, t.player), 0, |t.children|, k)
                             && MinMaxPar(t, depth, t.player).best == Some(t.children[k].mv)
  {
    if !IsLeaf(t, depth) {
      MinMaxParIsFonc(t, depth, t.player);
      MinMaxFoncChoice(t, depth, t.player);
    }
  }
}

=== FILE: scenarios.dfy ===
/** Small concrete positions on which the engines' observable behaviour
    differs: the sign convention at a terminal position, the tie rules of
    the different variants, and the `None` answers of the sequential
    Alpha-Beta search and of a one-level strategy. Movements are numbered
    by their position in enumeration order.
 */
module Scenarios {
  import opened GameTree
  import opened MinMaxEngine
  import opened AlphaBetaEngine
  import opened AlphaBetaWindow

  /** A terminal position of value 7 is scored -7 for the maximizing
      player and 7 for the other one, at every depth and by every engine. */
  lemma TerminalSeven(player: bool, depth: nat, alpha: I8, beta: I8)
    ensures var t: Tree<int> := Node(player, 7, []);
            && MinMaxFonc(t, depth, player) == Outcome(None, -7)
            && MinMaxFonc(t, depth, !player) == Outcome(None, 7)
            && AlphaBeta(t, depth, alpha, beta, player) == Outcome(None, -7)
            && AlphaBeta(t, depth, alpha, beta, !player) == Outcome(None, 7)
            && AlphaBetaPar(t, depth, alpha, beta, player) == Outcome(None, -7)
            && AlphaBetaPar(t, depth, alpha, beta, !player) == Outcome(None, 7)
  {
    var t: Tree<int> := Node(player, 7, []);
    SharedBaseCase(t, depth, alpha, beta, player);
    SharedBaseCase(t, depth, alpha, beta, !player);
  }

  /** With exactly one movement and depth at least 1, `minmax_fonc`,
      `minmax_par`, `alpha_beta_fonc` and `alpha_beta_par` return that
      movement with the value of the position it leads to. The sequential
      `alpha_beta` need not (see `SaturatedMinHasNoMove`), and `minmax_iter`
      never does. */
  lemma SingleMovement<M>(t: Tree<M>, depth: nat, alpha: I8, beta: I8, maximizing: bool)
    requires |t.children| == 1 && depth >= 1
    ensures var expected := Outcome(Some(t.children[0].mv), MinMaxValue(t.children[0].child, depth - 1, maximizing));
            && MinMaxFonc(t, depth, maximizing) == expected
            && MinMaxPar(t, depth, maximizing) == expected
            && AlphaBetaFonc(t, depth, alpha, beta, maximizing) == expected
            && AlphaBetaPar(t, depth, alpha, beta, maximizing) == expected
  {
    MinMaxFoncChoice(t, depth, maximizing);
    MinMaxParIsFonc(t, depth, maximizing);
    AlphaBetaParChoice(t, depth, alpha, beta, maximizing);
  }

  /** Two movements of equal value at a minimizing node. */
  function TieAtMin(): Tree<int>
  {
    Node(false, 0, [Branch(0, Node(true, 5, [])), Branch(1, Node(true, 5, []))])
  }

  /** `minmax_par` keeps the first of two equally small children and
      `alpha_beta_par` the last, with the same score. */
  lemma ParallelTieAtMin()
    ensures MinMaxPar(TieAtMin(), 1, true) == Outcome(Some(0), -5)
    ensures AlphaBetaPar(TieAtMin(), 1, I8Max, I8Min, true) == Outcome(Some(1), -5)
  {
    var t := TieAtMin();
    var vs := ChildValues(t, 1, true);
    assert vs[0] == -5 && vs[1] == -5;
    MinMaxParIsFonc(t, 1, true);
    MinMaxFoncChoice(t, 1, true);
    AlphaBetaParChoice(t, 1, I8Max, I8Min, true);
  }

  /** Two movements of equal value at a maximizing node. */
  function TieAtMax(): Tree<int>
  {
    Node(true, 0, [Branch(0, Node(false, 5, [])), Branch(1, Node(false, 5, []))])
  }

  /** `minmax_fonc` keeps the last of two equally large children and the
      sequential `alpha_beta`, even with the full window, the first. */
  lemma SequentialTieAtMax()
    ensures MinMaxFonc(TieAtMax(), 1, true) == Outcome(Some(1), 5)
    ensures AlphaBeta(TieAtMax(), 1, I8Min, I8Max, true) == Outcome(Some(0), 5)
  {
    var t := TieAtMax();
    var vs := ChildValues(t, 1, true);
    assert vs[0] == 5 && vs[1] == 5;
    MinMaxFoncChoice(t, 1, true);
    AlphaBetaMaxChoice(t, 1, I8Min, I8Max, true);
    FullWindowIsMinMax(t, 1, true);
  }

  /** A minimizing node whose only movement is worth `i8::MAX`. */
  function SaturatedMin(): Tree<int>
  {
    Node(false, 0, [Branch(0, Node(false, 127, []))])
  }

  /** Even with the full window the sequential `alpha_beta` returns no
      movement there, because no child is strictly below `beta`. */
  lemma SaturatedMinHasNoMove()
    ensures MinMaxFonc(SaturatedMin(), 1, true) == Outcome(Some(0), 127)
    ensures AlphaBeta(SaturatedMin(), 1, I8Min, I8Max, true) == Outcome(None, 127)
  {
    var t := SaturatedMin();
    assert ChildValues(t, 1, true)[0] == 127;
    MinMaxFoncChoice(t, 1, true);
    AlphaBetaMinChoice(t, 1, I8Min, I8Max, true);
  }

  /** `MinMax(1)` and `AlphaBeta(1)` search zero plies and never return a
      movement, even where legal movements exist. */
  lemma LevelOneReturnsNone<M>(t: Tree<M>)
    ensures MinMaxNextMove(1, t).None?
    ensures AlphaBetaNextMove(1, t).None?
  {
  }
}
